=== FILE: README.md ===
# Fleet-maintenance tracker, modelled in Dafny

The tracker keeps two lists in the browser's storage: vehicles and the
maintenance interventions logged against them. Every screen reads the lists
when it loads. The vehicle and intervention screens write them back after each
change, and the settings screen removes both. This project models that data logic as
pure functions over a `Store` of two optional slots. An absent slot reads as
the empty list. It then proves what each screen promises.

- `fleet.dfy` (`Fleet`) defines the data model. It has `Vehicle`, `Intervention` and
  `Store`, plus `Option` and `Result`, the two error notices, and the cost and
  date fields with their empty-field cases.
- `seqs.dfy` (`Seqs`) defines order-preserving `Filter` and the subsequence relation.
- `vehicles.dfy` (`VehicleRegistry`) covers the vehicle screen: validated add, and
  delete guarded by the interventions that reference the vehicle.
- `interventions.dfy` (`InterventionLog`) covers the intervention screen. Add is
  validated and copies the vehicle's name, falling back to `"Véhicule inconnu"`.
  Delete has no guard.
- `report.dfy` (`Report`) covers the financial report. It filters by vehicle and by
  period start, totals the costs, and groups the costs by vehicle name in order
  of first appearance.
- `dashboard.dfy` (`Dashboard`) covers the home screen. It computes the operational
  counts, the rounded percentage, the spend and the short intervention list.
- `settings.dfy` (`Settings`) covers the reset, which removes both slots.
- `scenario.dfy` (`Scenario`) is a worked example with two vehicles and two interventions.

Costs are whole numbers, or `Blank` for an empty field. Dates are day numbers,
or `Undated` for an empty field. Fresh ids and the period's start day are
parameters.

## Model

| member | source | states |
|---|---|---|
| Seqs.Filter | app/vehicules/page.tsx:89 | Every kept element passes the test, and every element that passes is kept. The result is a subsequence of the input, no longer than it. When every element passes, the input comes back whole. When none passes, the result is empty. |
| Seqs.FilterMultiplicity | app/vehicules/page.tsx:89 | Filtering keeps each passing element exactly as many times as it occurs in the input, and drops every failing one. With the subsequence property, this fixes the result completely. |
| Seqs.FilterConcat | app/bilan/page.tsx:40 | Filtering distributes over concatenation, so kept elements keep their relative order. |
| Seqs.SubsequenceTransitive | app/bilan/page.tsx:36-63 | A subsequence of a subsequence is a subsequence. Filtering by vehicle and then by period therefore still preserves order. |
| VehicleRegistry.AddVehicle | app/vehicules/page.tsx:41-57 | Add is refused with the missing-fields notice exactly when the name, type or registration number is empty. On success the list grows by one and earlier entries are unchanged. The new last entry is the form with the fresh id. The interventions slot is untouched. |
| VehicleRegistry.FormAfterAdd | app/vehicules/page.tsx:59-65 | After a successful add the form is blank and marked operational, so it cannot be resubmitted as is. After a refused add the form is kept. |
| VehicleRegistry.DeleteVehicle | app/vehicules/page.tsx:75-90 | Delete is refused exactly when some stored intervention references the id, and then there is no write. An absent interventions slot never blocks. Otherwise the remaining vehicles are exactly those with a different id, each kept as often as it occurred, in their original order. The interventions slot is untouched. |
| VehicleRegistry.AddThenDeleteVehicle | app/vehicules/page.tsx:41-90 | Add under an unused id, then delete that id before anything references it. The result is the original vehicle list. |
| VehicleRegistry.AddVehicleKeepsIdsUnique | app/vehicules/page.tsx:51-56 | Adding under an id not already present keeps vehicle ids unique. |
| VehicleRegistry.DeleteVehicleKeepsReferencesResolved | app/vehicules/page.tsx:77-89 | If every intervention named an existing vehicle before a successful delete, it still does afterwards. The guard never leaves a dangling reference. |
| VehicleRegistry.DeleteAbsentVehicle | app/vehicules/page.tsx:89 | Deleting an id that no vehicle has, and that nothing references, leaves the list unchanged. |
| VehicleRegistry.DeleteVehicleIdempotent | app/vehicules/page.tsx:89 | Deleting the same id a second time changes nothing. |
| VehicleRegistry.DeleteVehicleRemovesOne | app/vehicules/page.tsx:89 | When ids are unique, deleting a present vehicle shortens the list by exactly one. |
| InterventionLog.FindVehicle | app/interventions/page.tsx:61 | The lookup returns the first vehicle with the requested id. It returns nothing exactly when no vehicle has that id. |
| InterventionLog.VehicleLabel | app/interventions/page.tsx:60-66 | The recorded name is the name of the first vehicle with the id. If no vehicle matches, it is `"Véhicule inconnu"`. |
| InterventionLog.AddIntervention | app/interventions/page.tsx:50-70 | Add is refused exactly when the vehicle, date, description or cost is empty; the technician is not checked. On success one record is appended and earlier records are unchanged. The record keeps the form's fields except two: the id becomes the fresh id, and the vehicle name becomes the resolved name or the fallback. The vehicles slot is untouched. |
| InterventionLog.FormAfterAdd | app/interventions/page.tsx:72-80 | After a successful add every form field is empty. After a refused add the form is kept. |
| InterventionLog.DeleteIntervention | app/interventions/page.tsx:90-92 | Delete always succeeds. It keeps exactly the records with a different id, each as often as it occurred, in order. The vehicles slot is untouched. |
| InterventionLog.AddThenDeleteIntervention | app/interventions/page.tsx:50-92 | Add under an unused id, then delete that id. The result is the original intervention list. |
| InterventionLog.DeleteAbsentIntervention | app/interventions/page.tsx:91 | Deleting an id that no record has leaves the list unchanged. |
| InterventionLog.AddInterventionResolves | app/interventions/page.tsx:60-69 | Suppose every stored reference resolves. After an add they all still resolve exactly when the chosen vehicle exists, because the add itself does not check. |
| InterventionLog.DeleteInterventionKeepsReferencesResolved | app/interventions/page.tsx:90-92 | Removing interventions never creates a dangling reference. |
| InterventionLog.DeleteInterventionUnblocksVehicle | app/vehicules/page.tsx:77-87 | Once the only intervention referencing a vehicle is deleted, deleting the vehicle succeeds. This is the remedy the refusal notice suggests. |
| Report.ByVehicle | app/bilan/page.tsx:38-41 | The selector value `"all"` keeps the list whole. Any other value keeps exactly the interventions for that vehicle id, each as often as it occurred, in order. |
| Report.ByPeriod | app/bilan/page.tsx:43-63 | All time keeps the list whole. A period keeps exactly the interventions dated on or after its start, each as often as it occurred, in order. An empty date never passes. |
| Report.Filtered | app/bilan/page.tsx:35-63 | The report list holds exactly the interventions that pass both selectors, each as often as it occurs in the stored list. It is a subsequence of the stored list. With both selectors on "all", it is the whole list. |
| Report.Total | app/bilan/page.tsx:66 | The report total and the home screen's spend (app/page.tsx:37-40) both sum the cost of every intervention, an empty cost counting 0. The total of an empty list is 0. With no negative cost the total is never negative. A list of empty-cost interventions totals 0. |
| Report.TotalConcat | app/page.tsx:37-40 | The total of two lists put together is the sum of their totals. The spend therefore grows by exactly the cost of each added intervention. |
| Report.SubsequenceTotal | app/bilan/page.tsx:66 | With no negative cost, dropping interventions never raises the total. |
| Report.AddTo | app/bilan/page.tsx:73-77 | One accumulation step adds at most one bar and never removes one. |
| Report.AddToNames | app/bilan/page.tsx:73-76 | One accumulation step keeps the bar names. It appends the intervention's vehicle name at the end exactly when that name is new. |
| Report.AddToAmount | app/bilan/page.tsx:73-77 | One accumulation step adds the cost under the intervention's vehicle name and leaves every other name's amount unchanged. |
| Report.AddToSum | app/bilan/page.tsx:77 | One accumulation step raises the sum of the bars by the intervention's cost. |
| Report.Group | app/bilan/page.tsx:70-83 | The chart has a bar exactly when the list has an intervention. The bars are characterised by `GroupNames`, `GroupFirstAppearance`, `GroupAmounts` and `GroupSum`. |
| Report.GroupNames | app/bilan/page.tsx:70-83 | The bar names are pairwise distinct. They are exactly the vehicle names of the grouped interventions. |
| Report.GroupFirstAppearance | app/bilan/page.tsx:72-83 | The bars come in the order in which each vehicle name first appears in the list. |
| Report.GroupAmounts | app/bilan/page.tsx:72-78 | The amount accumulated under any name is the total cost of the interventions carrying that name. |
| Report.GroupEntryAmounts | app/bilan/page.tsx:72-83 | Each bar's amount is the total cost of the interventions with that bar's name. |
| Report.GroupSum | app/bilan/page.tsx:66-78 | The bars add up to the scalar total of the same list. |
| Report.Bilan | app/bilan/page.tsx:34-86 | The report total is the cost total of the filtered list and equals the sum of the bars. The chart is empty exactly when the filtered list is empty, and then the total is 0. The bars are distinct, in first-appearance order, and each holds its name's total. |
| Report.UnfilteredReport | app/bilan/page.tsx:36-44 | With both selectors on "all", the report covers every intervention and totals every cost. |
| Report.FilteredTotalBounded | app/bilan/page.tsx:36-66 | With no negative cost, any choice of filters reports a total between 0 and the grand total. |
| Report.BlankCostAddsNothing | app/bilan/page.tsx:66-77 | An empty cost adds 0 to the total and to every bar. Its vehicle name still gets a bar. |
| Dashboard.OperationalCount | app/page.tsx:32 | The operational count is the number of vehicles marked operational, counted one by one. It is at most the vehicle count. It equals the vehicle count exactly when every vehicle is operational, and it is 0 exactly when none is. |
| Dashboard.FilterCountsOperational | app/page.tsx:32 | The length of the list filtered to operational vehicles is the one-by-one count. |
| Dashboard.NonOperationalCount | app/page.tsx:33 | The non-operational count equals the vehicle count minus the operational count. It is never negative, and it equals the number of vehicles marked not operational. |
| Dashboard.OperationalPercent | app/page.tsx:104-106 | The percentage is 0 without vehicles and lies in [0, 100]. Otherwise it is the operational share times 100 rounded to the nearest integer, with halves rounding up. |
| Dashboard.RecentInterventions | app/page.tsx:35 | The short list is the first `min(3, n)` interventions in insertion order. |
| Dashboard.RecentHidesNewest | app/page.tsx:35 | Once three interventions exist, adding another leaves the short list unchanged. The newest intervention is never shown. |
| Dashboard.LatestInterventions | app/page.tsx:35 | Corrected short list: the last `min(3, n)` interventions in insertion order. |
| Dashboard.LatestShowsNewest | app/page.tsx:35 | In the corrected short list, the intervention added last is always listed last. |
| Dashboard.Summarize | app/page.tsx:15-40 | The home screen as the program computes it. The vehicle count is the list length. The operational count is the number of vehicles marked operational, and the two counts add up to the vehicle count. The percentage is the rounded share. The spend equals the report's unfiltered total. The short list is the first three records (`slice(0, 3)`). Absent slots give zero counts, zero spend and an empty list. |
| Dashboard.AddInterventionOnDashboard | app/page.tsx:35-40 | A successful intervention add raises the spend by the new record's cost and leaves the vehicle count alone. While fewer than three records existed, the new one is listed last. After that the short list does not change. |
| Dashboard.CorrectedSummarize | app/page.tsx:35 | The home screen with the corrected short list. Its list holds the last `min(3, n)` records, oldest first, so the most recently added record is always shown, last. Every other field is as on the screen as written. |
| Dashboard.AddInterventionOnCorrectedDashboard | app/page.tsx:35 | On the corrected home screen, a successfully added intervention is always listed last. |
| Settings.Reset | app/parametres/page.tsx:24-27 | Reset makes both slots absent, so both lists load empty. |
| Settings.ResetIdempotent | app/parametres/page.tsx:26-27 | Resetting twice is the same as resetting once. |
| Settings.ResetIgnoresReferences | app/parametres/page.tsx:24-27 | Reset has no guard. A vehicle whose delete is refused because interventions reference it is still gone after a reset. |
| Settings.ScreensAfterReset | app/parametres/page.tsx:26-27 | After a reset the home screen shows zeros and the report shows the empty state, for any filters. |
| Settings.AddAfterReset | app/parametres/page.tsx:26-27 | The first vehicle added after a reset is the only vehicle, and the interventions slot stays absent. |
| Scenario.AllTimeFigures | app/bilan/page.tsx:34-86 | Two interventions of 100 and 50 on two vehicles report a total of 150 over the bars A:100 and B:50. |
| Scenario.LastMonthFigures | app/bilan/page.tsx:62 | With the period starting after the old intervention, only the recent one remains: total 100, bar A:100. |
| Scenario.HomeFigures | app/page.tsx:32-40 | One operational vehicle out of two gives counts 1 and 1, a percentage of 50, and a spend of 150. |

## Findings

| source | as written | input that shows it | evidently intended | confidence | as-written member | corrected member |
|---|---|---|---|---|---|---|
| app/page.tsx:35 | `interventions.slice(0, 3)` takes the first three interventions ever added and shows them under the heading "Dernières interventions" (latest interventions). | Add four interventions A, B, C, D in that order. The home screen lists A, B, C, never D, and it keeps showing them however many more are added. | The three most recently added interventions (`slice(-3)`). | medium; not executed | Dashboard.RecentHidesNewest | Dashboard.LatestShowsNewest |

`Dashboard.Summarize` models the home screen as written, with `RecentInterventions`.
`Dashboard.CorrectedSummarize` is the same screen with the corrected `LatestInterventions`.

## Left out

- React state, hooks, dialogs, toasts, routing and all rendering, including the bar chart itself, are presentation only.
- The `localStorage` calls and the JSON encoding are left out. Most pages copy the lists into their state once, at mount. The model instead reads them from the one `Store` at the time of each operation. The vehicle delete guard is the exception: it re-reads the interventions slot from storage at delete time (app/vehicules/page.tsx:77), which the model matches exactly. Last-write-wins between several open tabs is not modelled.
- Ids come from `Date.now()`. They are a parameter here. The code does not guarantee that they are unique, so uniqueness appears only as an explicit precondition (`AddVehicleKeepsIdsUnique`, `DeleteVehicleRemovesOne`, the add-then-delete lemmas).
- The period start is computed with JavaScript `Date` month and year arithmetic (app/bilan/page.tsx:45-60). Date strings are parsed and compared as instants (app/bilan/page.tsx:62). The model takes the start as a day number (`Period.Since`) and compares day numbers. An empty date never passes, as an invalid `Date` compares false.
- Costs are floating point in the source (`parseFloat`, `toFixed`). Here they are whole numbers or an empty field. An unparsable, non-empty cost is not modelled. The home screen maps it to 0 (`parseFloat(c) || 0`), while the report lets NaN spread (`parseFloat(c || 0)`). For an empty field both give 0, which is what `CostOf` does.
- Dashboard.OperationalPercent: computes the exact rational share rounded half up. It does not model the floating-point division before `Math.round`, or the unrounded value given to the progress bar (app/page.tsx:110-116).
- Report.GroupFirstAppearance, Report.Bilan: the source lists bars with `Object.keys`, which puts integer-like names (such as "12") first, in numeric order, before other names in insertion order. The model keeps plain first-appearance order.
- Report.AddTo: the accumulator is a plain object, so a vehicle name such as `constructor` or `__proto__` reads an inherited property instead of starting at 0. Names are treated as ordinary keys here.
- Local date formatting for display (app/interventions/page.tsx:101-104) is left out.
- The cost validation refuses only an empty field. A cost of `"0"` is a non-empty string and is accepted, as `Amount(0)` is here. The field is not required to be non-zero.

=== FILE: dashboard.dfy ===
/**
 The home screen's summary: vehicle counts, the operational percentage, the
 total spend and a short list of interventions.
 */
module Dashboard {
  import opened Fleet
  import opened Seqs
  import Report
  import InterventionLog

  function IsOperational(v: Vehicle): bool {
    v.operational
  }

  function IsDown(v: Vehicle): bool {
    !v.operational
  }

  /** The operational vehicles counted one by one: an independent reference for
      the length of the filtered list the screen takes. */
  function CountOperational(vs: seq<Vehicle>): nat {
    if |vs| == 0 then 0
    else (if vs[0].operational then 1 else 0) + CountOperational(vs[1..])
  }

  lemma {:induction false} FilterCountsOperational(vs: seq<Vehicle>)
    ensures |Filter(vs, IsOperational)| == CountOperational(vs)
    decreases |vs|
  {
    if |vs| > 0 {
      FilterCountsOperational(vs[1..]);
    }
  }

  /** The number of vehicles marked operational. */
  function OperationalCount(vs: seq<Vehicle>): (n: nat)
    ensures n == CountOperational(vs)
    ensures n <= |vs|
    ensures n == |vs| <==> forall k :: 0 <= k < |vs| ==> vs[k].operational
    ensures n == 0 <==> forall k :: 0 <= k < |vs| ==> !vs[k].operational
  {
    var up := Filter(vs, IsOperational);
    FilterComplement(vs, IsOperational, IsDown);
    FilterCountsOperational(vs);
    |up|
  }

  /** Vehicles minus operational vehicles: exactly the vehicles marked down. */
  function NonOperationalCount(vs: seq<Vehicle>): (n: int)
    ensures n >= 0
    ensures n + OperationalCount(vs) == |vs|
    ensures n == |Filter(vs, IsDown)|
  {
    FilterComplement(vs, IsOperational, IsDown);
    |vs| - OperationalCount(vs)
  }

  /** `Math.round(operational / total * 100)`, or 0 without vehicles; computed
      exactly on integers, halves rounding up as `Math.round` does. */
  function OperationalPercent(vs: seq<Vehicle>): (r: int)
    ensures 0 <= r <= 100
    ensures |vs| == 0 ==> r == 0
    ensures |vs| > 0 ==>
      2 * r * |vs| <= 200 * OperationalCount(vs) + |vs| < 2 * r * |vs| + 2 * |vs|
  {
    var n := |vs|;
    if n == 0 then 0
    else
      var op := OperationalCount(vs);
      var q := (200 * op + n) / (2 * n);
      RoundedRatio(op, n, q);
      q
  }

  lemma RoundedRatio(op: nat, n: nat, q: int)
    requires 0 < n && op <= n
    requires q == (200 * op + n) / (2 * n)
    ensures 0 <= q <= 100
    ensures 2 * q * n <= 200 * op + n < 2 * q * n + 2 * n
  {
    var m := 200 * op + n;
    var d := 2 * n;
    assert d * q <= m < d * q + d;
    assert m < d * 101;
    MulCancel(d, q, 101);
    assert d * (-1) < d * q;
    MulCancel(d, -1, q);
  }

  lemma MulCancel(d: int, a: int, b: int)
    requires d > 0 && d * a < d * b
    ensures a < b
  {
  }

  /** `interventions.slice(0, 3)`: the first three interventions ever added. */
  function RecentInterventions(xs: seq<Intervention>): (r: seq<Intervention>)
    ensures |r| == if |xs| < 3 then |xs| else 3
    ensures forall k :: 0 <= k < |r| ==> r[k] == xs[k]
  {
    if |xs| <= 3 then xs else xs[..3]
  }

  /** Once three interventions exist, adding another never changes the list shown,
      so the newest intervention is never among the ones listed. */
  lemma RecentHidesNewest(xs: seq<Intervention>, x: Intervention)
    requires |xs| >= 3
    ensures RecentInterventions(xs + [x]) == RecentInterventions(xs)
    ensures |RecentInterventions(xs + [x])| == 3 && RecentInterventions(xs + [x]) == xs[..3]
  {
  }

  /** The three most recently added interventions, oldest first (`slice(-3)`). */
  function LatestInterventions(xs: seq<Intervention>): (r: seq<Intervention>)
    ensures |r| == if |xs| < 3 then |xs| else 3
    ensures forall k :: 0 <= k < |r| ==> r[k] == xs[|xs| - |r| + k]
  {
    if |xs| <= 3 then xs else xs[|xs| - 3..]
  }

  /** The intervention added last is always the last one listed. */
  lemma LatestShowsNewest(xs: seq<Intervention>, x: Intervention)
    ensures |LatestInterventions(xs + [x])| > 0
    ensures LatestInterventions(xs + [x])[|LatestInterventions(xs + [x])| - 1] == x
  {
  }

  /** What the home screen shows. */
  datatype Summary = Summary(
    vehicleCount: nat,
    operational: nat,
    nonOperational: int,
    percent: int,
    spend: int,
    latest: seq<Intervention>)

  /** The home screen as the program computes it, with the short list taken by
      `slice(0, 3)`. */
  function Summarize(s: Store): (r: Summary)
    ensures r.vehicleCount == |Vehicles(s)|
    ensures r.operational == CountOperational(Vehicles(s))
    ensures r.operational + r.nonOperational == r.vehicleCount
    ensures 0 <= r.nonOperational
    ensures r.percent == OperationalPercent(Vehicles(s)) && 0 <= r.percent <= 100
    ensures r.spend == Report.Bilan(Interventions(s), Report.AllVehicles, Report.AllTime).total
    ensures r.latest == RecentInterventions(Interventions(s))
    ensures s.vehicles.None? ==> r.vehicleCount == 0 && r.operational == 0 && r.nonOperational == 0 && r.percent == 0
    ensures s.interventions.None? ==> r.spend == 0 && r.latest == []
  {
    var vs := Vehicles(s);
    var xs := Interventions(s);
    Summary(
      |vs|,
      OperationalCount(vs),
      NonOperationalCount(vs),
      OperationalPercent(vs),
      Report.Total(xs),
      RecentInterventions(xs))
  }

  /** The home screen with the short list corrected to the three latest records. */
  function CorrectedSummarize(s: Store): (r: Summary)
    ensures r.(latest := []) == Summarize(s).(latest := [])
    ensures |r.latest| == if |Interventions(s)| < 3 then |Interventions(s)| else 3
    ensures forall k :: 0 <= k < |r.latest| ==>
      r.latest[k] == Interventions(s)[|Interventions(s)| - |r.latest| + k]
    ensures |Interventions(s)| > 0 ==>
      |r.latest| > 0 && r.latest[|r.latest| - 1] == Interventions(s)[|Interventions(s)| - 1]
  {
    Summarize(s).(latest := LatestInterventions(Interventions(s)))
  }

  /** A successful intervention add raises the home screen's spend by the new
      record's cost. The short list shows the new record last only while fewer
      than three records existed before; from then on it does not change. */
  lemma AddInterventionOnDashboard(s: Store, form: Intervention, freshId: string)
    requires InterventionLog.AddIntervention(s, form, freshId).Ok?
    ensures
      var s' := InterventionLog.AddIntervention(s, form, freshId).value;
      var latest := Summarize(s').latest;
      && Summarize(s').spend == Summarize(s).spend + CostOf(Interventions(s')[|Interventions(s)|])
      && Summarize(s').vehicleCount == Summarize(s).vehicleCount
      && (|Interventions(s)| < 3 ==> |latest| == |Interventions(s)| + 1 && latest[|latest| - 1].id == freshId)
      && (|Interventions(s)| >= 3 ==> latest == Summarize(s).latest)
  {
    var s' := InterventionLog.AddIntervention(s, form, freshId).value;
    var xs := Interventions(s);
    var x := Interventions(s')[|xs|];
    assert Interventions(s') == xs + [x];
    Report.TotalConcat(xs, [x]);
    if |xs| >= 3 {
      RecentHidesNewest(xs, x);
    }
  }

  /** On the corrected home screen, a successful add is always listed last. */
  lemma AddInterventionOnCorrectedDashboard(s: Store, form: Intervention, freshId: string)
    requires InterventionLog.AddIntervention(s, form, freshId).Ok?
    ensures
      var latest := CorrectedSummarize(InterventionLog.AddIntervention(s, form, freshId).value).latest;
      |latest| > 0 && latest[|latest| - 1].id == freshId
  {
    var s' := InterventionLog.AddIntervention(s, form, freshId).value;
    var xs := Interventions(s);
    var x := Interventions(s')[|xs|];
    assert Interventions(s') == xs + [x];
    LatestShowsNewest(xs, x);
  }
}

=== FILE: fleet.dfy ===
/**
 The data model of the fleet-maintenance tracker: vehicles, interventions, and
 the browser store that holds one optional list of each.

 Every field the forms produce is text in the application; here the two fields
 that are interpreted later (the intervention date and its cost) carry their
 interpreted value, with an explicit case for the empty form field.
 */
module Fleet {

  datatype Option<+T> = None | Some(value: T)

  /** The two blocking notices the screens show instead of writing. */
  datatype Error =
    | MissingRequiredFields     // "Veuillez remplir tous les champs obligatoires."
    | VehicleHasInterventions   // "Ce véhicule a des interventions associées."

  datatype Result<+T> = Ok(value: T) | Err(error: Error)

  /** A vehicle record; `vehicleType` is the record's `type` field. */
  datatype Vehicle = Vehicle(
    id: string,
    name: string,
    vehicleType: string,
    registrationNumber: string,
    operational: bool)

  /** An intervention date as a day number, or the empty date field. */
  datatype Date = Undated | On(day: int)

  /** An intervention cost in whole currency units, or the empty cost field. */
  datatype Cost = Blank | Amount(value: int)

  /** An intervention record; `vehicleName` is a copy taken when it was added. */
  datatype Intervention = Intervention(
    id: string,
    vehicleId: string,
    vehicleName: string,
    date: Date,
    technician: string,
    description: string,
    cost: Cost)

  /** The two storage slots, "vehicles" and "interventions"; None is an absent slot. */
  datatype Store = Store(
    vehicles: Option<seq<Vehicle>>,
    interventions: Option<seq<Intervention>>)

  /** Reading a slot at page load: an absent slot leaves the initial empty list in place. */
  function Load<T>(slot: Option<seq<T>>): seq<T> {
    match slot
    case None => []
    case Some(xs) => xs
  }

  function Vehicles(s: Store): seq<Vehicle> {
    Load(s.vehicles)
  }

  function Interventions(s: Store): seq<Intervention> {
    Load(s.interventions)
  }

  /** The amount an intervention contributes to a sum. Both ways the screens read
      a cost (`parseFloat(c) || 0` and `parseFloat(c || 0)`) give 0 for an empty
      field and the number otherwise. */
  function CostOf(i: Intervention): int {
    match i.cost
    case Blank => 0
    case Amount(v) => v
  }

  /** True when some intervention points at vehicle `vehicleId`. */
  predicate Referenced(xs: seq<Intervention>, vehicleId: string) {
    exists k :: 0 <= k < |xs| && xs[k].vehicleId == vehicleId
  }

  /** True when some vehicle carries the id `id`. */
  predicate HasVehicle(vs: seq<Vehicle>, id: string) {
    exists k :: 0 <= k < |vs| && vs[k].id == id
  }

  /** True when some intervention carries the id `id`. */
  predicate HasIntervention(xs: seq<Intervention>, id: string) {
    exists k :: 0 <= k < |xs| && xs[k].id == id
  }

  ghost predicate UniqueVehicleIds(vs: seq<Vehicle>) {
    forall j, k :: 0 <= j < k < |vs| ==> vs[j].id != vs[k].id
  }

  /** Every intervention points at a vehicle that exists. */
  ghost predicate AllReferencesResolve(s: Store) {
    forall k :: 0 <= k < |Interventions(s)| ==> HasVehicle(Vehicles(s), Interventions(s)[k].vehicleId)
  }
}

=== FILE: interventions.dfy ===
/**
 The intervention log screen: adding an intervention, which copies the name of
 the vehicle it is for, and deleting one, which has no guard.
 */
module InterventionLog {
  import opened Fleet
  import opened Seqs
  import VehicleRegistry

  /** The name recorded when the chosen vehicle id matches no vehicle. */
  const UnknownVehicleLabel := "Véhicule inconnu"

  /** The add form as the screen first shows it. */
  const BlankInterventionForm := Intervention("", "", "", Undated, "", "", Blank)

  /** The add form is refused when the vehicle, the date, the description or the
      cost is empty; the technician may be left empty. */
  predicate MissingInterventionFields(form: Intervention) {
    form.vehicleId == "" || form.date.Undated? || form.description == "" || form.cost.Blank?
  }

  /** The first vehicle carrying id `id`, if any. */
  function FindVehicle(vs: seq<Vehicle>, id: string): (r: Option<Vehicle>)
    ensures r.None? <==> !HasVehicle(vs, id)
    ensures r.Some? ==> r.value.id == id
    ensures r.Some? ==> exists k :: 0 <= k < |vs| && vs[k] == r.value && forall j :: 0 <= j < k ==> vs[j].id != id
  {
    if |vs| == 0 then None
    else if vs[0].id == id then Some(vs[0])
    else
      var r := FindVehicle(vs[1..], id);
      assert r.Some? ==> exists k :: 0 <= k < |vs| && vs[k] == r.value && forall j :: 0 <= j < k ==> vs[j].id != id by {
        if r.Some? {
          var k :| 0 <= k < |vs[1..]| && vs[1..][k] == r.value && forall j :: 0 <= j < k ==> vs[1..][j].id != id;
          assert vs[k + 1] == r.value;
          assert forall j :: 0 <= j < k + 1 ==> vs[j].id != id by {
            forall j | 0 <= j < k + 1 ensures vs[j].id != id {
              if j > 0 {
                assert vs[j] == vs[1..][j - 1];
              }
            }
          }
        }
      }
      r
  }

  /** The vehicle name an added intervention records for vehicle id `id`. */
  function VehicleLabel(vs: seq<Vehicle>, id: string): (name: string)
    ensures !HasVehicle(vs, id) ==> name == UnknownVehicleLabel
    ensures HasVehicle(vs, id) ==>
      exists k :: 0 <= k < |vs| && vs[k].id == id && vs[k].name == name && forall j :: 0 <= j < k ==> vs[j].id != id
  {
    match FindVehicle(vs, id)
    case Some(v) => v.name
    case None => UnknownVehicleLabel
  }

  /** Submitting the add form: validate, stamp a fresh id and the vehicle's current
      name over whatever the form held, then append. */
  function AddIntervention(s: Store, form: Intervention, freshId: string): (r: Result<Store>)
    ensures r.Err? <==> (form.vehicleId == "" || form.date.Undated? || form.description == "" || form.cost.Blank?)
    ensures r.Err? ==> r.error == MissingRequiredFields
    ensures r.Ok? ==> r.value.vehicles == s.vehicles
    ensures r.Ok? ==> |Interventions(r.value)| == |Interventions(s)| + 1
    ensures r.Ok? ==> forall k :: 0 <= k < |Interventions(s)| ==> Interventions(r.value)[k] == Interventions(s)[k]
    ensures r.Ok? ==>
      var i := Interventions(r.value)[|Interventions(s)|];
      && i.id == freshId
      && i.vehicleId == form.vehicleId
      && i.date == form.date
      && i.technician == form.technician
      && i.description == form.description
      && i.cost == form.cost
      && (FindVehicle(Vehicles(s), form.vehicleId).Some? ==> i.vehicleName == FindVehicle(Vehicles(s), form.vehicleId).value.name)
      && (FindVehicle(Vehicles(s), form.vehicleId).None? ==> i.vehicleName == UnknownVehicleLabel)
  {
    if MissingInterventionFields(form) then Err(MissingRequiredFields)
    else
      var record := form.(id := freshId, vehicleName := VehicleLabel(Vehicles(s), form.vehicleId));
      Ok(s.(interventions := Some(Interventions(s) + [record])))
  }

  /** The add form after a submission: reset to the blank form on success, kept as typed otherwise. */
  function FormAfterAdd(form: Intervention, r: Result<Store>): (f: Intervention)
    ensures r.Err? ==> f == form
    ensures r.Ok? ==> MissingInterventionFields(f)
    ensures r.Ok? ==> f.id == "" && f.vehicleId == "" && f.vehicleName == "" && f.technician == "" && f.description == ""
    ensures r.Ok? ==> f.date.Undated? && f.cost.Blank?
  {
    if r.Ok? then BlankInterventionForm else form
  }

  /** The test that keeps every intervention except those with id `id`. */
  function NotInterventionId(id: string): Intervention -> bool {
    (i: Intervention) => i.id != id
  }

  /** Deleting an intervention: every record with that id is filtered out; there is no guard. */
  function DeleteIntervention(s: Store, id: string): (r: Store)
    ensures r.vehicles == s.vehicles
    ensures r.interventions.Some?
    ensures forall i: Intervention :: i in Interventions(r) <==> i in Interventions(s) && i.id != id
    ensures forall i: Intervention ::
      multiset(Interventions(r))[i] == if i.id != id then multiset(Interventions(s))[i] else 0
    ensures IsSubsequence(Interventions(r), Interventions(s))
    ensures !HasIntervention(Interventions(r), id)
  {
    FilterMultiplicity(Interventions(s), NotInterventionId(id));
    s.(interventions := Some(Filter(Interventions(s), NotInterventionId(id))))
  }

  /** Deleting an intervention right after adding it gives back the list as it was. */
  lemma AddThenDeleteIntervention(s: Store, form: Intervention, freshId: string)
    requires !MissingInterventionFields(form)
    requires !HasIntervention(Interventions(s), freshId)
    ensures AddIntervention(s, form, freshId).Ok?
    ensures DeleteIntervention(AddIntervention(s, form, freshId).value, freshId) == s.(interventions := Some(Interventions(s)))
  {
    var xs := Interventions(s);
    var i := form.(id := freshId, vehicleName := VehicleLabel(Vehicles(s), form.vehicleId));
    var p := NotInterventionId(freshId);
    var s' := s.(interventions := Some(xs + [i]));
    assert AddIntervention(s, form, freshId) == Ok(s');
    FilterConcat(xs, [i], p);
    assert forall k :: 0 <= k < |xs| ==> p(xs[k]);
    assert Filter(xs, p) == xs;
    assert Filter([i], p) == [];
    assert Filter(Interventions(s'), p) == xs;
  }

  /** Deleting an id no intervention has leaves the list as it was. */
  lemma DeleteAbsentIntervention(s: Store, id: string)
    requires !HasIntervention(Interventions(s), id)
    ensures Interventions(DeleteIntervention(s, id)) == Interventions(s)
  {
    assert forall k :: 0 <= k < |Interventions(s)| ==> NotInterventionId(id)(Interventions(s)[k]);
  }

  /** An added intervention keeps every reference resolved exactly when its vehicle exists. */
  lemma AddInterventionResolves(s: Store, form: Intervention, freshId: string)
    requires AllReferencesResolve(s)
    requires AddIntervention(s, form, freshId).Ok?
    ensures AllReferencesResolve(AddIntervention(s, form, freshId).value) <==> HasVehicle(Vehicles(s), form.vehicleId)
  {
    var s' := AddIntervention(s, form, freshId).value;
    var n := |Interventions(s)|;
    assert Vehicles(s') == Vehicles(s);
    assert Interventions(s')[n].vehicleId == form.vehicleId;
    if HasVehicle(Vehicles(s), form.vehicleId) {
      forall k | 0 <= k < |Interventions(s')|
        ensures HasVehicle(Vehicles(s'), Interventions(s')[k].vehicleId)
      {
        if k < n {
          assert Interventions(s')[k] == Interventions(s)[k];
        }
      }
    }
  }

  /** Removing interventions never leaves a dangling reference behind. */
  lemma DeleteInterventionKeepsReferencesResolved(s: Store, id: string)
    requires AllReferencesResolve(s)
    ensures AllReferencesResolve(DeleteIntervention(s, id))
  {
    var s' := DeleteIntervention(s, id);
    forall k | 0 <= k < |Interventions(s')|
      ensures HasVehicle(Vehicles(s'), Interventions(s')[k].vehicleId)
    {
      var i := Interventions(s')[k];
      assert i in Interventions(s);
      var j :| 0 <= j < |Interventions(s)| && Interventions(s)[j] == i;
    }
  }

  /** The remedy the blocked vehicle delete suggests: once the interventions that
      point at a vehicle are deleted, the vehicle can be deleted. */
  lemma DeleteInterventionUnblocksVehicle(s: Store, iid: string, vid: string)
    requires forall k :: 0 <= k < |Interventions(s)| && Interventions(s)[k].vehicleId == vid ==> Interventions(s)[k].id == iid
    ensures VehicleRegistry.DeleteVehicle(DeleteIntervention(s, iid), vid).Ok?
  {
  }
}

=== FILE: report.dfy ===
/**
 The financial report screen: the interventions are narrowed by a vehicle
 selector and a period selector, then summed into one total and grouped by
 vehicle name into the bar chart's entries.
 */
module Report {
  import opened Fleet
  import opened Seqs

  /** The vehicle selector's value meaning "every vehicle". */
  const AllVehicles := "all"

  /** The period selector: every date, or the dates on or after a start day
      (one month, three months or one year before today). */
  datatype Period = AllTime | Since(start: int)

  function OfVehicle(id: string): Intervention -> bool {
    (i: Intervention) => i.vehicleId == id
  }

  /** An empty date compares false against the start of the period, so it never passes. */
  function OnOrAfter(start: int): Intervention -> bool {
    (i: Intervention) => i.date.On? && i.date.day >= start
  }

  function NamedAs(name: string): Intervention -> bool {
    (i: Intervention) => i.vehicleName == name
  }

  /** The vehicle filter: the selector value "all" keeps everything. */
  function ByVehicle(xs: seq<Intervention>, vehicle: string): (r: seq<Intervention>)
    ensures vehicle == AllVehicles ==> r == xs
    ensures vehicle != AllVehicles ==> forall i: Intervention :: i in r <==> i in xs && i.vehicleId == vehicle
    ensures vehicle != AllVehicles ==> forall i: Intervention ::
      multiset(r)[i] == if i.vehicleId == vehicle then multiset(xs)[i] else 0
    ensures IsSubsequence(r, xs)
  {
    SubsequenceReflexive(xs);
    FilterMultiplicity(xs, OfVehicle(vehicle));
    if vehicle != AllVehicles then Filter(xs, OfVehicle(vehicle)) else xs
  }

  /** The period filter. */
  function ByPeriod(xs: seq<Intervention>, period: Period): (r: seq<Intervention>)
    ensures period.AllTime? ==> r == xs
    ensures period.Since? ==> forall i: Intervention :: i in r <==> i in xs && i.date.On? && i.date.day >= period.start
    ensures period.Since? ==> forall i: Intervention ::
      multiset(r)[i] == if i.date.On? && i.date.day >= period.start then multiset(xs)[i] else 0
    ensures IsSubsequence(r, xs)
  {
    SubsequenceReflexive(xs);
    match period
    case AllTime => xs
    case Since(start) =>
      FilterMultiplicity(xs, OnOrAfter(start));
      Filter(xs, OnOrAfter(start))
  }

  /** The test both selectors together apply to one intervention. */
  predicate Selected(i: Intervention, vehicle: string, period: Period) {
    && (vehicle == AllVehicles || i.vehicleId == vehicle)
    && (period.AllTime? || (i.date.On? && i.date.day >= period.start))
  }

  /** Both filters, vehicle first. */
  function Filtered(xs: seq<Intervention>, vehicle: string, period: Period): (r: seq<Intervention>)
    ensures forall i: Intervention :: i in r <==> i in xs && Selected(i, vehicle, period)
    ensures forall i: Intervention ::
      multiset(r)[i] == (if Selected(i, vehicle, period) then multiset(xs)[i] else 0)
    ensures IsSubsequence(r, xs)
    ensures vehicle == AllVehicles && period.AllTime? ==> r == xs
  {
    var byVehicle := ByVehicle(xs, vehicle);
    var r := ByPeriod(byVehicle, period);
    SubsequenceTransitive(r, byVehicle, xs);
    r
  }

  /** The sum of the costs, an empty cost counting 0. */
  function Total(xs: seq<Intervention>): (r: int)
    ensures |xs| == 0 ==> r == 0
    ensures (forall k :: 0 <= k < |xs| ==> CostOf(xs[k]) >= 0) ==> r >= 0
    ensures (forall k :: 0 <= k < |xs| ==> xs[k].cost.Blank?) ==> r == 0
  {
    if |xs| == 0 then 0 else CostOf(xs[0]) + Total(xs[1..])
  }

  lemma {:induction false} TotalConcat(a: seq<Intervention>, b: seq<Intervention>)
    ensures Total(a + b) == Total(a) + Total(b)
    decreases |a|
  {
    if |a| == 0 {
      assert a + b == b;
    } else {
      assert (a + b)[1..] == a[1..] + b;
      TotalConcat(a[1..], b);
    }
  }

  /** With no negative cost, dropping interventions never raises the total. */
  lemma {:induction false} SubsequenceTotal(a: seq<Intervention>, b: seq<Intervention>)
    requires IsSubsequence(a, b)
    requires forall k :: 0 <= k < |b| ==> CostOf(b[k]) >= 0
    ensures 0 <= Total(a) <= Total(b)
    decreases |b|
  {
    if |b| > 0 {
      if |a| > 0 && a[0] == b[0] && IsSubsequence(a[1..], b[1..]) {
        SubsequenceTotal(a[1..], b[1..]);
      } else {
        SubsequenceReflexive(b[1..]);
        if |a| > 0 {
          SubsequenceTotal(a, b[1..]);
        }
        SubsequenceTotal(b[1..], b[1..]);
      }
    }
  }

  /** One bar of the chart: a vehicle name and the amount spent on it. */
  datatype ChartEntry = ChartEntry(name: string, amount: int)

  /** The names of the chart's bars, in order. */
  function Names(g: seq<ChartEntry>): (ns: seq<string>)
    ensures |ns| == |g|
    ensures forall k :: 0 <= k < |g| ==> ns[k] == g[k].name
  {
    if |g| == 0 then [] else [g[0].name] + Names(g[1..])
  }

  /** The vehicle names of the interventions, in order. */
  function NameColumn(xs: seq<Intervention>): (ns: seq<string>)
    ensures |ns| == |xs|
    ensures forall k :: 0 <= k < |xs| ==> ns[k] == xs[k].vehicleName
  {
    if |xs| == 0 then [] else [xs[0].vehicleName] + NameColumn(xs[1..])
  }

  function SumAmounts(g: seq<ChartEntry>): int {
    if |g| == 0 then 0 else g[0].amount + SumAmounts(g[1..])
  }

  /** The amount of the first bar named `name`, or 0 when there is none: reading
      the accumulator object at key `name`. */
  function AmountFor(g: seq<ChartEntry>, name: string): int {
    if |g| == 0 then 0
    else if g[0].name == name then g[0].amount
    else AmountFor(g[1..], name)
  }

  ghost predicate Distinct(ns: seq<string>) {
    forall j, k :: 0 <= j < k < |ns| ==> ns[j] != ns[k]
  }

  /** The position of the first occurrence of `name` in `ns`, or |ns| when absent. */
  function FirstIndex(ns: seq<string>, name: string): (r: nat)
    ensures r <= |ns|
    ensures r < |ns| ==> ns[r] == name
    ensures forall b :: 0 <= b < r ==> ns[b] != name
  {
    if |ns| == 0 then 0
    else if ns[0] == name then 0
    else 1 + FirstIndex(ns[1..], name)
  }

  /** One step of the accumulation loop: add the cost to the bar for the
      intervention's vehicle name, creating that bar at the end when it is new. */
  function AddTo(g: seq<ChartEntry>, i: Intervention): (r: seq<ChartEntry>)
    ensures |g| <= |r| <= |g| + 1 && |r| > 0
  {
    if |g| == 0 then [ChartEntry(i.vehicleName, CostOf(i))]
    else if g[0].name == i.vehicleName then [g[0].(amount := g[0].amount + CostOf(i))] + g[1..]
    else [g[0]] + AddTo(g[1..], i)
  }

  /** A step keeps the bar names, appending the intervention's name when it is new. */
  lemma {:induction false} AddToNames(g: seq<ChartEntry>, i: Intervention)
    ensures i.vehicleName in Names(g) ==> Names(AddTo(g, i)) == Names(g)
    ensures i.vehicleName !in Names(g) ==> Names(AddTo(g, i)) == Names(g) + [i.vehicleName]
    decreases |g|
  {
    if |g| > 0 && g[0].name != i.vehicleName {
      AddToNames(g[1..], i);
      assert Names(g) == [g[0].name] + Names(g[1..]);
      assert AddTo(g, i)[1..] == AddTo(g[1..], i);
    }
  }

  /** A step adds the intervention's cost to the sum of the bars. */
  lemma {:induction false} AddToSum(g: seq<ChartEntry>, i: Intervention)
    ensures SumAmounts(AddTo(g, i)) == SumAmounts(g) + CostOf(i)
    decreases |g|
  {
    if |g| > 0 && g[0].name != i.vehicleName {
      AddToSum(g[1..], i);
      assert AddTo(g, i)[1..] == AddTo(g[1..], i);
    }
  }

  /** A step adds the cost under the intervention's name and nowhere else. */
  lemma {:induction false} AddToAmount(g: seq<ChartEntry>, i: Intervention, name: string)
    ensures AmountFor(AddTo(g, i), name) == AmountFor(g, name) + (if name == i.vehicleName then CostOf(i) else 0)
    decreases |g|
  {
    if |g| > 0 && g[0].name != i.vehicleName {
      AddToAmount(g[1..], i, name);
      assert AddTo(g, i)[1..] == AddTo(g[1..], i);
    }
  }

  /** The chart's bars: the interventions folded into the accumulator in list order. */
  function Group(xs: seq<Intervention>): (g: seq<ChartEntry>)
    ensures |g| == 0 <==> |xs| == 0
  {
    if |xs| == 0 then [] else AddTo(Group(xs[..|xs| - 1]), xs[|xs| - 1])
  }

  /** Splitting off the last intervention, as every induction over `Group` does. */
  lemma GroupSnoc(xs: seq<Intervention>)
    requires |xs| > 0
    ensures xs == xs[..|xs| - 1] + [xs[|xs| - 1]]
    ensures Group(xs) == AddTo(Group(xs[..|xs| - 1]), xs[|xs| - 1])
    ensures NameColumn(xs) == NameColumn(xs[..|xs| - 1]) + [xs[|xs| - 1].vehicleName]
  {
    var p, x := xs[..|xs| - 1], xs[|xs| - 1];
    assert xs == p + [x] by {
      forall k | 0 <= k < |xs| ensures xs[k] == (p + [x])[k] {}
    }
    NameColumnSnoc(p, x);
  }

  lemma NameColumnSnoc(p: seq<Intervention>, x: Intervention)
    ensures NameColumn(p + [x]) == NameColumn(p) + [x.vehicleName]
  {
    var l := NameColumn(p + [x]);
    var r := NameColumn(p) + [x.vehicleName];
    assert |l| == |r|;
    forall k | 0 <= k < |l|
      ensures l[k] == r[k]
    {
      if k < |p| {
        assert (p + [x])[k] == p[k];
      }
    }
  }

  lemma FirstIndexExtend(ns: seq<string>, t: seq<string>, name: string)
    requires name in ns
    ensures FirstIndex(ns + t, name) == FirstIndex(ns, name)
  {
    var r := FirstIndex(ns, name);
    assert (ns + t)[r] == name;
    assert forall b :: 0 <= b < r ==> (ns + t)[b] == ns[b];
  }

  lemma FirstIndexNew(ns: seq<string>, name: string)
    requires name !in ns
    ensures FirstIndex(ns + [name], name) == |ns|
  {
    assert (ns + [name])[|ns|] == name;
  }

  lemma DistinctExtends(ns: seq<string>, x: string)
    requires Distinct(ns) && x !in ns
    ensures Distinct(ns + [x])
  {
  }

  /** The bar names are exactly the distinct vehicle names of the interventions. */
  lemma {:induction false} GroupNames(xs: seq<Intervention>)
    ensures Distinct(Names(Group(xs)))
    ensures forall name :: name in Names(Group(xs)) <==> name in NameColumn(xs)
    decreases |xs|
  {
    if |xs| > 0 {
      var p := xs[..|xs| - 1];
      var x := xs[|xs| - 1];
      GroupSnoc(xs);
      GroupNames(p);
      AddToNames(Group(p), x);
      if x.vehicleName !in Names(Group(p)) {
        DistinctExtends(Names(Group(p)), x.vehicleName);
      }
    }
  }

  /** Every name of `ns` first appears in `col` before the names that follow it in `ns`. */
  ghost predicate FirstAppearanceOrder(col: seq<string>, ns: seq<string>) {
    forall j, k :: 0 <= j < k < |ns| ==> FirstIndex(col, ns[j]) < FirstIndex(col, ns[k])
  }

  lemma OrderExtends(col: seq<string>, ns: seq<string>, x: string)
    requires FirstAppearanceOrder(col, ns)
    requires forall m :: m in ns <==> m in col
    ensures x in ns ==> FirstAppearanceOrder(col + [x], ns)
    ensures x !in ns ==> FirstAppearanceOrder(col + [x], ns + [x])
  {
    forall m | m in ns
      ensures FirstIndex(col + [x], m) == FirstIndex(col, m)
    {
      FirstIndexExtend(col, [x], m);
    }
    if x !in ns {
      FirstIndexNew(col, x);
      var ns' := ns + [x];
      forall j, k | 0 <= j < k < |ns'|
        ensures FirstIndex(col + [x], ns'[j]) < FirstIndex(col + [x], ns'[k])
      {
        assert ns'[j] == ns[j] && ns[j] in ns;
        if k < |ns| {
          assert ns'[k] == ns[k] && ns[k] in ns;
        }
      }
    }
  }

  /** The bars come in the order in which each vehicle name first appears. */
  lemma {:induction false} GroupFirstAppearance(xs: seq<Intervention>)
    ensures FirstAppearanceOrder(NameColumn(xs), Names(Group(xs)))
    decreases |xs|
  {
    if |xs| > 0 {
      var p := xs[..|xs| - 1];
      var x := xs[|xs| - 1];
      GroupSnoc(xs);
      GroupFirstAppearance(p);
      GroupNames(p);
      AddToNames(Group(p), x);
      OrderExtends(NameColumn(p), Names(Group(p)), x.vehicleName);
    }
  }

  /** The amount read from the accumulator for any name is the total cost of the
      interventions carrying that vehicle name. */
  lemma {:induction false} GroupAmounts(xs: seq<Intervention>)
    ensures forall name :: AmountFor(Group(xs), name) == Total(Filter(xs, NamedAs(name)))
    decreases |xs|
  {
    if |xs| > 0 {
      var p := xs[..|xs| - 1];
      var x := xs[|xs| - 1];
      GroupSnoc(xs);
      GroupAmounts(p);
      forall name
        ensures AmountFor(Group(xs), name) == Total(Filter(xs, NamedAs(name)))
      {
        AddToAmount(Group(p), x, name);
        FilterSnoc(p, x, NamedAs(name));
        TotalConcat(Filter(p, NamedAs(name)), if NamedAs(name)(x) then [x] else []);
      }
    }
  }

  /** The bars add up to the total of all the interventions grouped. */
  lemma {:induction false} GroupSum(xs: seq<Intervention>)
    ensures SumAmounts(Group(xs)) == Total(xs)
    decreases |xs|
  {
    if |xs| > 0 {
      var p := xs[..|xs| - 1];
      var x := xs[|xs| - 1];
      GroupSnoc(xs);
      GroupSum(p);
      AddToSum(Group(p), x);
      TotalConcat(p, [x]);
    }
  }

  /** With distinct names, each bar holds what the accumulator holds at its name. */
  lemma {:induction false} AmountForDistinct(g: seq<ChartEntry>, k: nat)
    requires Distinct(Names(g))
    requires k < |g|
    ensures AmountFor(g, g[k].name) == g[k].amount
    decreases k
  {
    if k > 0 {
      assert Names(g)[0] != Names(g)[k];
      assert Distinct(Names(g[1..])) by {
        forall a, b | 0 <= a < b < |g[1..]|
          ensures Names(g[1..])[a] != Names(g[1..])[b]
        {
          assert Names(g)[a + 1] != Names(g)[b + 1];
        }
      }
      AmountForDistinct(g[1..], k - 1);
    }
  }

  /** Each bar's amount is the total cost of the interventions with that vehicle name. */
  lemma GroupEntryAmounts(xs: seq<Intervention>)
    ensures forall k :: 0 <= k < |Group(xs)| ==>
      Group(xs)[k].amount == Total(Filter(xs, NamedAs(Group(xs)[k].name)))
  {
    GroupNames(xs);
    GroupAmounts(xs);
    forall k | 0 <= k < |Group(xs)|
      ensures Group(xs)[k].amount == Total(Filter(xs, NamedAs(Group(xs)[k].name)))
    {
      AmountForDistinct(Group(xs), k);
    }
  }

  /** What the report screen shows: the total and the chart's bars. */
  datatype ReportView = ReportView(total: int, chart: seq<ChartEntry>)

  function Bilan(xs: seq<Intervention>, vehicle: string, period: Period): (r: ReportView)
    ensures r.total == Total(Filtered(xs, vehicle, period))
    ensures r.total == SumAmounts(r.chart)
    ensures r.chart == [] <==> Filtered(xs, vehicle, period) == []
    ensures r.chart == [] ==> r.total == 0
    ensures Distinct(Names(r.chart))
    ensures forall name :: name in Names(r.chart) <==> name in NameColumn(Filtered(xs, vehicle, period))
    ensures FirstAppearanceOrder(NameColumn(Filtered(xs, vehicle, period)), Names(r.chart))
    ensures forall k :: 0 <= k < |r.chart| ==>
      r.chart[k].amount == Total(Filter(Filtered(xs, vehicle, period), NamedAs(r.chart[k].name)))
  {
    var f := Filtered(xs, vehicle, period);
    GroupSum(f);
    GroupNames(f);
    GroupFirstAppearance(f);
    GroupEntryAmounts(f);
    ReportView(Total(f), Group(f))
  }

  /** With both selectors on "all", the report covers every intervention. */
  lemma UnfilteredReport(xs: seq<Intervention>)
    ensures Bilan(xs, AllVehicles, AllTime).total == Total(xs)
    ensures Filtered(xs, AllVehicles, AllTime) == xs
  {
  }

  /** With no negative cost, any choice of filters reports at most the grand total. */
  lemma FilteredTotalBounded(xs: seq<Intervention>, vehicle: string, period: Period)
    requires forall k :: 0 <= k < |xs| ==> CostOf(xs[k]) >= 0
    ensures 0 <= Bilan(xs, vehicle, period).total <= Total(xs)
  {
    SubsequenceTotal(Filtered(xs, vehicle, period), xs);
  }

  /** An intervention whose cost field is empty adds nothing to the total or to
      any bar, though it still creates a bar (of 0) for a new vehicle name. */
  lemma BlankCostAddsNothing(xs: seq<Intervention>, i: Intervention)
    requires i.cost.Blank?
    ensures Total(xs + [i]) == Total(xs)
    ensures forall name :: AmountFor(Group(xs + [i]), name) == AmountFor(Group(xs), name)
    ensures i.vehicleName in Names(Group(xs + [i]))
  {
    TotalConcat(xs, [i]);
    GroupSnoc(xs + [i]);
    assert (xs + [i])[..|xs + [i]| - 1] == xs;
    AddToNames(Group(xs), i);
    forall name
      ensures AmountFor(Group(xs + [i]), name) == AmountFor(Group(xs), name)
    {
      AddToAmount(Group(xs), i, name);
    }
  }
}

=== FILE: scenario.dfy ===
/**
 A worked example: two vehicles, one operational, and two interventions, one
 recent and one two years old.
 */
module Scenario {
  import opened Fleet
  import Report
  import Dashboard
  import Seqs

  const TruckA := Vehicle("a", "A", "truck", "AA-100", true)
  const TruckB := Vehicle("b", "B", "truck", "BB-200", false)
  const Recent := Intervention("x", "a", "A", On(1000), "", "oil change", Amount(100))
  const Old := Intervention("y", "b", "B", On(270), "", "tyres", Amount(50))
  const Example := Store(Some([TruckA, TruckB]), Some([Recent, Old]))

  /** All time, the report totals 150 over two bars, one per vehicle name. */
  lemma AllTimeFigures()
    ensures Report.Bilan(Interventions(Example), Report.AllVehicles, Report.AllTime)
      == Report.ReportView(150, [Report.ChartEntry("A", 100), Report.ChartEntry("B", 50)])
  {
    var xs := [Recent, Old];
    assert xs[..1] == [Recent];
    assert Report.Filtered(xs, Report.AllVehicles, Report.AllTime) == xs;
    assert Report.Group([Recent]) == [Report.ChartEntry("A", 100)] by {
      assert [Recent][..0] == [];
    }
    assert Report.Group(xs) == Report.AddTo([Report.ChartEntry("A", 100)], Old);
    assert Report.AddTo([Report.ChartEntry("A", 100)], Old)
      == [Report.ChartEntry("A", 100)] + Report.AddTo([], Old);
    assert Report.Total(xs) == 150;
  }

  /** From day 970 on (the last month), only the recent intervention remains. */
  lemma LastMonthFigures()
    ensures Report.Bilan(Interventions(Example), Report.AllVehicles, Report.Since(970))
      == Report.ReportView(100, [Report.ChartEntry("A", 100)])
  {
    assert [Recent][..0] == [];
  }

  /** The home screen counts one operational vehicle out of two, 50 percent, and
      a spend of 150. */
  lemma HomeFigures()
    ensures Dashboard.Summarize(Example).vehicleCount == 2
    ensures Dashboard.Summarize(Example).operational == 1
    ensures Dashboard.Summarize(Example).nonOperational == 1
    ensures Dashboard.Summarize(Example).percent == 50
    ensures Dashboard.Summarize(Example).spend == 150
  {
    var vs := [TruckA, TruckB];
    assert Dashboard.OperationalCount(vs) == 1 by {
      assert Seqs.Filter(vs, Dashboard.IsOperational) == [TruckA];
    }
    assert Dashboard.OperationalPercent(vs) == 50;
    assert Report.Total([Recent, Old]) == 150;
  }
}

=== FILE: seqs.dfy ===
/**
 Order-preserving filtering of sequences, the one collection primitive every
 screen of the tracker uses (`Array.prototype.filter`).
 */
module Seqs {

  /** `a` can be obtained from `b` by deleting elements: `a` keeps `b`'s order. */
  ghost predicate IsSubsequence<T>(a: seq<T>, b: seq<T>)
    decreases |b|
  {
    || |a| == 0
    || (|b| > 0 && ((a[0] == b[0] && IsSubsequence(a[1..], b[1..])) || IsSubsequence(a, b[1..])))
  }

  lemma {:induction false} SubsequenceReflexive<T>(a: seq<T>)
    ensures IsSubsequence(a, a)
    decreases |a|
  {
    if |a| > 0 {
      SubsequenceReflexive(a[1..]);
    }
  }

  lemma {:induction false} SubsequenceTransitive<T>(a: seq<T>, b: seq<T>, c: seq<T>)
    requires IsSubsequence(a, b) && IsSubsequence(b, c)
    ensures IsSubsequence(a, c)
    decreases |c|
  {
    if |a| > 0 {
      if IsSubsequence(b, c[1..]) {
        SubsequenceTransitive(a, b, c[1..]);
      } else {
        assert b[0] == c[0] && IsSubsequence(b[1..], c[1..]);
        if a[0] == b[0] && IsSubsequence(a[1..], b[1..]) {
          SubsequenceTransitive(a[1..], b[1..], c[1..]);
        } else {
          SubsequenceTransitive(a, b[1..], c[1..]);
        }
      }
    }
  }

  /** The elements of `xs` that satisfy `p`, in their original order. */
  function Filter<T>(xs: seq<T>, p: T -> bool): (r: seq<T>)
    ensures |r| <= |xs|
    ensures forall k :: 0 <= k < |r| ==> r[k] in xs && p(r[k])
    ensures forall k :: 0 <= k < |xs| && p(xs[k]) ==> xs[k] in r
    ensures IsSubsequence(r, xs)
    ensures (forall k :: 0 <= k < |xs| ==> p(xs[k])) ==> r == xs
    ensures (forall k :: 0 <= k < |xs| ==> !p(xs[k])) ==> r == []
  {
    if |xs| == 0 then []
    else if p(xs[0]) then [xs[0]] + Filter(xs[1..], p)
    else Filter(xs[1..], p)
  }

  /** `Filter` keeps every passing element as many times as it occurs and drops
      every failing one: the result is determined up to order, and
      `IsSubsequence` fixes the order. */
  lemma {:induction false} FilterMultiplicity<T(!new)>(xs: seq<T>, p: T -> bool)
    ensures forall x :: multiset(Filter(xs, p))[x] == if p(x) then multiset(xs)[x] else 0
    decreases |xs|
  {
    if |xs| > 0 {
      FilterMultiplicity(xs[1..], p);
      assert xs == [xs[0]] + xs[1..];
      assert multiset(xs) == multiset{xs[0]} + multiset(xs[1..]);
    }
  }

  /** Filtering distributes over concatenation, so it never reorders what it keeps. */
  lemma {:induction false} FilterConcat<T>(a: seq<T>, b: seq<T>, p: T -> bool)
    ensures Filter(a + b, p) == Filter(a, p) + Filter(b, p)
    decreases |a|
  {
    if |a| == 0 {
      assert a + b == b;
    } else {
      assert (a + b)[1..] == a[1..] + b;
      FilterConcat(a[1..], b, p);
    }
  }

  /** Appending one element appends it to the filtered result exactly when it passes. */
  lemma FilterSnoc<T>(a: seq<T>, x: T, p: T -> bool)
    ensures Filter(a + [x], p) == Filter(a, p) + (if p(x) then [x] else [])
  {
    FilterConcat(a, [x], p);
  }

  /** Filtering twice by the same test is filtering once. */
  lemma FilterIdempotent<T>(xs: seq<T>, p: T -> bool)
    ensures Filter(Filter(xs, p), p) == Filter(xs, p)
  {
    var r := Filter(xs, p);
    assert forall k :: 0 <= k < |r| ==> p(r[k]) by {
      forall k | 0 <= k < |r| ensures p(r[k]) {
        assert r[k] in r;
      }
    }
  }

  /** Elements that fail `p` and elements that pass it add up to the whole sequence. */
  lemma {:induction false} FilterComplement<T>(xs: seq<T>, p: T -> bool, q: T -> bool)
    requires forall k :: 0 <= k < |xs| ==> q(xs[k]) == !p(xs[k])
    ensures |Filter(xs, p)| + |Filter(xs, q)| == |xs|
    decreases |xs|
  {
    if |xs| > 0 {
      FilterComplement(xs[1..], p, q);
    }
  }
}

=== FILE: settings.dfy ===
/**
 The settings screen's reset: both storage slots are removed, whatever they hold.
 */
module Settings {
  import opened Fleet
  import VehicleRegistry
  import Report
  import Dashboard

  function Reset(s: Store): (r: Store)
    ensures r.vehicles.None?
    ensures r.interventions.None?
    ensures Vehicles(r) == [] && Interventions(r) == []
  {
    Store(None, None)
  }

  /** Resetting twice is resetting once. */
  lemma ResetIdempotent(s: Store)
    ensures Reset(Reset(s)) == Reset(s)
  {
  }

  /** Reset has no guard: a vehicle whose delete is refused because interventions
      point at it is still gone after a reset. */
  lemma ResetIgnoresReferences(s: Store, id: string)
    requires Referenced(Interventions(s), id)
    ensures VehicleRegistry.DeleteVehicle(s, id).Err?
    ensures !HasVehicle(Vehicles(Reset(s)), id)
    ensures AllReferencesResolve(Reset(s))
  {
  }

  /** After a reset every screen starts from empty lists: the home screen shows
      zeros and the report shows the empty state for any filters. */
  lemma ScreensAfterReset(s: Store, vehicle: string, period: Report.Period)
    ensures Dashboard.Summarize(Reset(s)) == Dashboard.Summary(0, 0, 0, 0, 0, [])
    ensures Report.Bilan(Interventions(Reset(s)), vehicle, period) == Report.ReportView(0, [])
  {
  }

  /** The first vehicle added after a reset is the only vehicle. */
  lemma AddAfterReset(s: Store, form: Vehicle, freshId: string)
    requires !VehicleRegistry.MissingVehicleFields(form)
    ensures VehicleRegistry.AddVehicle(Reset(s), form, freshId) == Ok(Store(Some([form.(id := freshId)]), None))
  {
    assert Vehicles(Reset(s)) + [form.(id := freshId)] == [form.(id := freshId)];
  }
}

=== FILE: vehicles.dfy ===
/**
 The vehicle registry screen: adding a vehicle from the form and deleting a
 vehicle, guarded by the interventions that still point at it.
 */
module VehicleRegistry {
  import opened Fleet
  import opened Seqs

  /** The add form as the screen first shows it: empty fields, marked operational. */
  const BlankVehicleForm := Vehicle("", "", "", "", true)

  /** The add form is refused when the name, the type or the registration number is empty. */
  predicate MissingVehicleFields(form: Vehicle) {
    form.name == "" || form.vehicleType == "" || form.registrationNumber == ""
  }

  /** Submitting the add form: validate, then append the form under a fresh id. */
  function AddVehicle(s: Store, form: Vehicle, freshId: string): (r: Result<Store>)
    ensures r.Err? <==> (form.name == "" || form.vehicleType == "" || form.registrationNumber == "")
    ensures r.Err? ==> r.error == MissingRequiredFields
    ensures r.Ok? ==> r.value.interventions == s.interventions
    ensures r.Ok? ==> |Vehicles(r.value)| == |Vehicles(s)| + 1
    ensures r.Ok? ==> forall k :: 0 <= k < |Vehicles(s)| ==> Vehicles(r.value)[k] == Vehicles(s)[k]
    ensures r.Ok? ==>
      var v := Vehicles(r.value)[|Vehicles(s)|];
      && v.id == freshId
      && v.name == form.name
      && v.vehicleType == form.vehicleType
      && v.registrationNumber == form.registrationNumber
      && v.operational == form.operational
  {
    if MissingVehicleFields(form) then Err(MissingRequiredFields)
    else Ok(s.(vehicles := Some(Vehicles(s) + [form.(id := freshId)])))
  }

  /** The add form after a submission: reset to the blank form on success, kept as typed otherwise. */
  function FormAfterAdd(form: Vehicle, r: Result<Store>): (f: Vehicle)
    ensures r.Err? ==> f == form
    ensures r.Ok? ==> f.operational
    ensures r.Ok? ==> f.id == "" && f.name == "" && f.vehicleType == "" && f.registrationNumber == ""
    ensures r.Ok? ==> MissingVehicleFields(f)
  {
    if r.Ok? then BlankVehicleForm else form
  }

  /** The test that keeps every vehicle except those with id `id`. */
  function NotVehicleId(id: string): Vehicle -> bool {
    (v: Vehicle) => v.id != id
  }

  /** Deleting a vehicle: refused while any stored intervention points at it,
      otherwise every vehicle with that id is filtered out. */
  function DeleteVehicle(s: Store, id: string): (r: Result<Store>)
    ensures r.Err? <==> Referenced(Interventions(s), id)
    ensures r.Err? ==> r.error == VehicleHasInterventions
    ensures s.interventions.None? ==> r.Ok?
    ensures r.Ok? ==> r.value.interventions == s.interventions && r.value.vehicles.Some?
    ensures r.Ok? ==> forall v: Vehicle :: v in Vehicles(r.value) <==> v in Vehicles(s) && v.id != id
    ensures r.Ok? ==> forall v: Vehicle ::
      multiset(Vehicles(r.value))[v] == if v.id != id then multiset(Vehicles(s))[v] else 0
    ensures r.Ok? ==> IsSubsequence(Vehicles(r.value), Vehicles(s))
    ensures r.Ok? ==> !HasVehicle(Vehicles(r.value), id)
  {
    if Referenced(Interventions(s), id) then Err(VehicleHasInterventions)
    else
      FilterMultiplicity(Vehicles(s), NotVehicleId(id));
      Ok(s.(vehicles := Some(Filter(Vehicles(s), NotVehicleId(id)))))
  }

  /** Deleting a vehicle right after adding it, before anything references it,
      gives back the vehicle list as it was. */
  lemma AddThenDeleteVehicle(s: Store, form: Vehicle, freshId: string)
    requires !MissingVehicleFields(form)
    requires !HasVehicle(Vehicles(s), freshId)
    requires !Referenced(Interventions(s), freshId)
    ensures AddVehicle(s, form, freshId).Ok?
    ensures DeleteVehicle(AddVehicle(s, form, freshId).value, freshId) == Ok(s.(vehicles := Some(Vehicles(s))))
  {
    var vs := Vehicles(s);
    var v := form.(id := freshId);
    var p := NotVehicleId(freshId);
    var s' := s.(vehicles := Some(vs + [v]));
    assert AddVehicle(s, form, freshId) == Ok(s');
    assert !Referenced(Interventions(s'), freshId) by {
      assert Interventions(s') == Interventions(s);
    }
    FilterConcat(vs, [v], p);
    assert forall k :: 0 <= k < |vs| ==> p(vs[k]);
    assert Filter(vs, p) == vs;
    assert Filter([v], p) == [];
    assert Filter(Vehicles(s'), p) == vs;
  }

  /** Adding under an id no vehicle has keeps vehicle ids unique. */
  lemma AddVehicleKeepsIdsUnique(s: Store, form: Vehicle, freshId: string)
    requires UniqueVehicleIds(Vehicles(s))
    requires !HasVehicle(Vehicles(s), freshId)
    requires AddVehicle(s, form, freshId).Ok?
    ensures UniqueVehicleIds(Vehicles(AddVehicle(s, form, freshId).value))
  {
  }

  /** The guard keeps the store free of dangling references: if every intervention
      named an existing vehicle before a delete, it still does after. */
  lemma DeleteVehicleKeepsReferencesResolved(s: Store, id: string)
    requires AllReferencesResolve(s)
    requires DeleteVehicle(s, id).Ok?
    ensures AllReferencesResolve(DeleteVehicle(s, id).value)
  {
    var s' := DeleteVehicle(s, id).value;
    var xs := Interventions(s);
    assert Interventions(s') == xs;
    forall k | 0 <= k < |xs|
      ensures HasVehicle(Vehicles(s'), xs[k].vehicleId)
    {
      var vid := xs[k].vehicleId;
      assert vid != id;
      var j :| 0 <= j < |Vehicles(s)| && Vehicles(s)[j].id == vid;
      var v := Vehicles(s)[j];
      assert v in Vehicles(s');
      var m :| 0 <= m < |Vehicles(s')| && Vehicles(s')[m] == v;
    }
  }

  /** Deleting an id no vehicle has, when nothing references it, leaves the list as it was. */
  lemma DeleteAbsentVehicle(s: Store, id: string)
    requires !HasVehicle(Vehicles(s), id)
    requires !Referenced(Interventions(s), id)
    ensures DeleteVehicle(s, id) == Ok(s.(vehicles := Some(Vehicles(s))))
  {
    assert forall k :: 0 <= k < |Vehicles(s)| ==> NotVehicleId(id)(Vehicles(s)[k]);
  }

  /** A second delete of the same id changes nothing more. */
  lemma DeleteVehicleIdempotent(s: Store, id: string)
    requires DeleteVehicle(s, id).Ok?
    ensures DeleteVehicle(DeleteVehicle(s, id).value, id) == DeleteVehicle(s, id)
  {
    FilterIdempotent(Vehicles(s), NotVehicleId(id));
  }

  /** With unique ids, deleting a present, unreferenced vehicle shortens the list by exactly one. */
  lemma DeleteVehicleRemovesOne(s: Store, id: string)
    requires UniqueVehicleIds(Vehicles(s))
    requires HasVehicle(Vehicles(s), id)
    requires DeleteVehicle(s, id).Ok?
    ensures |Vehicles(DeleteVehicle(s, id).value)| == |Vehicles(s)| - 1
  {
    FilterUniqueId(Vehicles(s), id);
  }

  lemma {:induction false} FilterUniqueId(vs: seq<Vehicle>, id: string)
    requires UniqueVehicleIds(vs)
    requires HasVehicle(vs, id)
    ensures |Filter(vs, NotVehicleId(id))| == |vs| - 1
    decreases |vs|
  {
    var rest := vs[1..];
    if vs[0].id == id {
      assert forall k :: 0 <= k < |rest| ==> NotVehicleId(id)(rest[k]) by {
        forall k | 0 <= k < |rest| ensures rest[k].id != id {
          assert rest[k] == vs[k + 1];
        }
      }
    } else {
      var j :| 0 <= j < |vs| && vs[j].id == id;
      assert rest[j - 1].id == id;
      FilterUniqueId(rest, id);
    }
  }
}
